=== FILE: README.md ===
# Loan amortization and payment reconciliation, in Dafny

This project models the core of a small microlending platform. It covers two Node services and one form check:

- **Loans service.**
  - A client asks for a loan: amount (`monto`), annual percent rate (`tasa`) and term in months (`plazo`).
  - An administrator approves or rejects the request.
  - On approval, an amortization table of `plazo` rows is generated.
- **Payments service.**
  - Each payment is compared with the loan's monthly installment (`cuota_mensual`).
  - An accepted payment is recorded and the earliest pending row is marked paid.
  - The loan is closed (`pagado`) when no row is left pending.
- **Registration form.** A password rule, checked after the form's empty-field check.

The database is an immutable `Store` record:

- `map<LoanId, Loan>` of loans;
- `map<LoanId, seq<Row>>` of amortization rows, in insertion order;
- the payment log;
- the next serial id.

Every handler that writes is a pure function from a store to an outcome and a new store; the read-only handlers map a store to a reply. Money is in integer cents. The installment formula is stated over the reals and then rounded to cents. Loan statuses map to the texts the services write:

| constructor | status text |
|---|---|
| `AwaitingApproval` | 'pendiente_aprobacion' |
| `Approved` | 'aprobado' |
| `Rejected` | 'rechazado' |
| `Paid` | 'pagado' |
| `Pending` | 'pendiente' |

Row statuses are `Unpaid` ('pendiente') and `Settled` ('pagado').

Modules:

- `LoanTypes` (types.dfy): entities, the store, replies and status codes.
- `AmortizationService` (amortization_service.dfy): the annuity formula, its meaning (it pays the loan off), and rounding to cents.
- `AmortizationSchedule` (schedule.dfy): the rows of `generateAmortization` and their sums and balances.
- `LoanModel` (loan_model.dfy): the loans model layer.
- `LoanController` (loan_controller.dfy): the loans request handlers.
- `PaymentController` (payment_controller.dfy): the payments handlers.
- `Lifecycle` (lifecycle.dfy): arbitrary runs of handlers from an empty store, and the invariant they keep.
- `Registro` (registro.dfy): `validarPassword` and the order of checks in `handleSubmit`.

Behaviours of the source that the model reproduces and proves:

- `hasActiveLoan` counts loans in status 'pendiente'. No handler ever writes that status, so the "active loan" gate of `requestLoan` never fires. A client holding an approved, unpaid loan may request another one (`Lifecycle.ActiveLoanGateNeverFires`, `Lifecycle.ApprovedLoanDoesNotBlockRequest`).
- `updateAmortizationTable` always returns a message object, so `updateAmortization` never answers 404 (`LoanController.UpdateAmortizationNeverNotFound`).
- A payment is recorded before the schedule is advanced. A payment against a loan with no pending row is therefore recorded anyway, and its reply cannot tell it apart from one that settled a row (`PaymentController.PaymentRecordedWithoutPendingRows`, `PaymentController.ReplyIgnoresSchedule`).
- The schedule subtracts whole installments from the principal and never adds interest. At a high enough rate, the fixed installments overshoot the principal and the last row is due a negative amount (`AmortizationSchedule.OvershootingSchedule`, `AmortizationSchedule.LastDueSign`).
- The change of an overpayment is reported but never credited (`PaymentController.ChangeNeverCredited`).

## Model

| member | source | states |
|---|---|---|
| AmortizationService.CalcularCuotaMensual | backend/prestamos/src/services/amortizationService.js:1-4 | there is no installment exactly when the denominator `1 - (1+r)^-plazo` is zero; otherwise the installment `c` solves `c * (1 - (1+r)^-plazo) == monto * r`, and is zero where the power is infinite |
| AmortizationService.CuotaZeroAtTotalLoss | backend/prestamos/src/services/amortizationService.js:2-3 | at a rate of -1200 % the base of the power is zero, the power infinite, and the installment zero for every positive term |
| AmortizationService.CuotaDefinedForValidTerms | backend/prestamos/src/services/amortizationService.js:1-4 | a positive rate and a term of at least one month always give a finite installment |
| AmortizationService.CuotaUndefinedAtZeroRate | backend/prestamos/src/services/amortizationService.js:2-3 | a zero rate makes the denominator `1 - (1+r)^-plazo` vanish, so the formula has no value, for every term |
| AmortizationService.CuotaUndefinedAtZeroTerm | backend/prestamos/src/services/amortizationService.js:3 | a zero-month term makes the denominator vanish |
| AmortizationService.CuotaSingleMonth | backend/prestamos/src/services/amortizationService.js:3 | over one month the installment is the principal plus one month of interest, `monto * (1 + tasa/1200)` |
| AmortizationService.CuotaPositive | backend/prestamos/src/services/amortizationService.js:3 | positive principal, positive rate and a term of at least one month give a positive installment |
| AmortizationService.AnnuityEquation | backend/prestamos/src/services/amortizationService.js:3 | where the power is finite the installment `c` solves `c * (1 - (1+r)^-plazo) == monto * r`; where it is infinite the installment is zero |
| AmortizationService.CuotaAmortizesLoan | backend/prestamos/src/services/amortizationService.js:1-4 | paying the installment every month, with interest at the monthly rate, leaves a balance of exactly zero after `plazo` months |
| AmortizationService.BalanceClosedForm | backend/prestamos/src/services/amortizationService.js:3 | the balance after k months equals the annuity closed form `monto*(1+r)^k - c*((1+r)^k - 1)/r` (stated multiplied through by r) |
| AmortizationService.ScheduleCuotaAgrees | backend/prestamos/src/models/loanModel.js:59-60 | the rate written `tasa/100/12` at approval gives the same installment as `tasa/12/100` at request time |
| AmortizationService.ScheduleInstallmentAgrees | backend/prestamos/src/models/loanModel.js:59-60 | so the cents installment recomputed for the schedule equals the one stored with the loan |
| AmortizationService.InstallmentCents | backend/prestamos/src/controllers/loanController.js:35 | the stored installment exists exactly when the formula is finite, and lies within half a cent of it |
| AmortizationService.RoundHalfUp | backend/prestamos/src/models/loanModel.js:77 | the rounded amount is within half a unit of the exact one, ties going up |
| AmortizationService.PowInt | backend/prestamos/src/services/amortizationService.js:3 | the power is undefined exactly when zero is raised to a negative exponent; a non-negative exponent gives the repeated product, and a negative one its reciprocal |
| AmortizationSchedule.GenerateRows | backend/prestamos/src/models/loanModel.js:61-79 | the loop with its running balance, where the last row is due the balance itself, builds exactly the schedule defined row by row |
| AmortizationSchedule.ScheduleShape | backend/prestamos/src/models/loanModel.js:63-79 | exactly `plazo` rows (none for a non-positive term), numbered 1..plazo contiguously, all pending |
| AmortizationSchedule.SingleMonthSchedule | backend/prestamos/src/models/loanModel.js:63-67 | over one month the only row is the last, due the whole principal with balance 0, whatever the installment |
| AmortizationSchedule.ScheduleInstallments | backend/prestamos/src/models/loanModel.js:65 | every row before the last is due the fixed installment |
| AmortizationSchedule.PrefixSum | backend/prestamos/src/models/loanModel.js:65-67 | the first k rows (k < plazo) are due k installments in total |
| AmortizationSchedule.ScheduleSumsToPrincipal | backend/prestamos/src/models/loanModel.js:61-67 | the amounts due add up to the principal exactly, for any installment |
| AmortizationSchedule.ScheduleBalances | backend/prestamos/src/models/loanModel.js:65-78 | each stored balance is the principal less the amounts due so far, floored at zero, and the last balance is zero |
| AmortizationSchedule.BalancesNonIncreasing | backend/prestamos/src/models/loanModel.js:67-78 | with a non-negative installment the stored balances never rise along the schedule |
| AmortizationSchedule.LastDueSign | backend/prestamos/src/models/loanModel.js:65 | the last amount due is non-negative exactly when `(plazo-1)*cuota <= monto` |
| AmortizationSchedule.OvershootingSchedule | backend/prestamos/src/models/loanModel.js:61-79 | for 100000 cents over 12 months at 13500, the last row is due -48500 while the balances from row 8 on are 0 and the sum is still the principal |
| LoanModel.CreateLoan | backend/prestamos/src/models/loanModel.js:3-12 | one loan is added under a fresh serial id with the given fields; nothing else changes and the store stays well-formed |
| LoanModel.Decide | backend/prestamos/src/models/loanModel.js:14-37 | the conditional update succeeds exactly on a loan awaiting approval; on failure the store is unchanged, on success only that loan's status changes |
| LoanModel.ApproveLoan | backend/prestamos/src/models/loanModel.js:14-23 | approval succeeds exactly on a loan awaiting approval, leaving it 'aprobado'; otherwise null with the store unchanged |
| LoanModel.RejectLoan | backend/prestamos/src/models/loanModel.js:28-37 | rejection succeeds exactly on a loan awaiting approval, leaving it 'rechazado'; otherwise null with the store unchanged |
| LoanModel.ApproveIsFinal | backend/prestamos/src/models/loanModel.js:14-37 | after a successful approval, both a rejection and a second approval of the loan fail |
| LoanModel.RejectIsFinal | backend/prestamos/src/models/loanModel.js:14-37 | after a successful rejection, both an approval and a second rejection of the loan fail |
| LoanModel.HasActiveLoan | backend/prestamos/src/models/loanModel.js:45-49 | true exactly when the user owns a loan in status 'pendiente' (an approved loan does not count) |
| LoanModel.HasLoanAwaitingApproval | backend/prestamos/src/models/loanModel.js:51-55 | true exactly when the user owns a loan awaiting approval |
| LoanModel.GenerateAmortization | backend/prestamos/src/models/loanModel.js:57-87 | fails exactly when the term is two months or more and the installment is not finite (only rows before the last read it); otherwise appends the loan's schedule, summing to the principal, which for one month is the single row due the principal even without an installment, and touches nothing else |
| LoanModel.CountPending | backend/prestamos/src/models/loanModel.js:90-99 | the pending count is zero exactly when no row is pending |
| LoanModel.IsLoanFullyPaid | backend/prestamos/src/models/loanModel.js:90-99 | true exactly when every row of the loan is paid |
| LoanModel.NextPending | backend/prestamos/src/models/loanModel.js:113-118 | finds a row exactly when one is pending, and then the pending row with the smallest installment number (first in table order on ties) |
| LoanModel.UpdateAmortizationTable | backend/prestamos/src/models/loanModel.js:107-153 | with no pending row: the "no pending installments" message and no change; otherwise exactly the earliest pending row (smallest installment number, as `NextPending` guarantees) becomes paid, the pending count drops by one, and the loan becomes 'pagado' exactly when none is left; other loans, rows and payments are unchanged |
| LoanModel.SettleOneCount | backend/prestamos/src/models/loanModel.js:110-133 | paying one pending row lowers the pending count by exactly one |
| LoanModel.ScheduleStartsUnpaid | backend/prestamos/src/models/loanModel.js:63-79 | a generated schedule is in ascending installment order and wholly pending |
| LoanModel.EarliestIsNext | backend/prestamos/src/models/loanModel.js:113-118 | on an ascending schedule with its first n rows paid, the row the update selects is row n |
| LoanModel.UpdateKeepsOrder | backend/prestamos/src/models/loanModel.js:107-148 | if every loan's rows are ascending and paid from the front, they still are after an update |
| LoanModel.UpdatePaysInOrder | backend/prestamos/src/models/loanModel.js:107-148 | successive updates pay the rows strictly in order, and the loan closes exactly on the last row |
| LoanController.RequestLoan | backend/prestamos/src/controllers/loanController.js:18-43 | 403 for non-clients, then 400 for a loan awaiting approval, then 400 for an 'active' loan, with nothing created; otherwise 201 and exactly one new loan awaiting approval, carrying the request's unchecked terms and the installment they give, under the next serial id, which advances by one |
| LoanController.ApproveLoanRequest | backend/prestamos/src/controllers/loanController.js:48-68 | 403 for non-admins; 404 with no change unless the loan awaits approval; success exactly for an admin, a loan awaiting approval, and a term of at most one month or a finite installment; on success the loan is 'aprobado' and its own terms' schedule is appended (nothing for a term below one month, the single row due the principal for one month); otherwise 500, with the approval kept and no rows; other loans' rows, the payment log and the serial counter never change |
| LoanController.RejectLoanRequest | backend/prestamos/src/controllers/loanController.js:73-91 | the same guards as approval; success exactly on a loan awaiting approval; no schedule, payment or the serial counter ever changes |
| LoanController.GetLoans | backend/prestamos/src/controllers/loanController.js:96-122 | an admin gets exactly the loans awaiting approval, anyone else exactly their own loans; 404 exactly when that set is empty |
| LoanController.GetLoanById | backend/prestamos/src/controllers/loanController.js:144-157 | any caller gets the loan with that id, or 404 when there is none |
| LoanController.GetAmortization | backend/prestamos/src/controllers/loanController.js:124-142 | the loan's rows, or 404 exactly when it has none |
| LoanController.UpdateAmortization | backend/prestamos/src/controllers/loanController.js:159-173 | always 200 carrying the table update's message, with the table update's effect; no role check |
| LoanController.UpdateAmortizationNeverNotFound | backend/prestamos/src/controllers/loanController.js:163-168 | with no pending row the answer is still 200 with the "no pending installments" message, and nothing changes |
| PaymentController.RegisterPayment | backend/pagos/src/models/paymentModel.js:3-12 | appends exactly one payment to the log and changes nothing else |
| PaymentController.ProcessPayment | backend/pagos/src/controllers/paymentController.js:5-66 | a missing loan gives 500, a paid loan 400; accepted exactly when the amount is at least the installment; an accepted payment records the installment and advances the schedule once, and answers 200 with the installment and change for an overpayment, or just the fixed acknowledgement for an exact one; a refused one changes nothing |
| PaymentController.ReplyIgnoresSchedule | backend/pagos/src/controllers/paymentController.js:33-56 | the reply depends on the loan alone: the table update's own message never reaches the payer |
| PaymentController.ChangeNeverCredited | backend/pagos/src/controllers/paymentController.js:26-57 | any two accepted amounts for the same loan leave the same store: the excess is never credited |
| PaymentController.PaymentRecordedWithoutPendingRows | backend/pagos/src/controllers/paymentController.js:30-56 | with no pending row the payment is still accepted and recorded with the same 200 a payment that settles a row gets, and loans and rows are untouched |
| PaymentController.Reverse | backend/pagos/src/models/paymentModel.js:18 | the log, newest first, position by position |
| PaymentController.GetAllPaymentsHistory | backend/pagos/src/controllers/paymentController.js:70-91 | 403 exactly for non-admins; otherwise 200 with the payer and amount of every payment, newest first |
| Lifecycle.RunKeepsInv | backend/prestamos/src/controllers/loanController.js:18-173 | any run of handlers keeps: ids below the serial counter, no loan 'pendiente', each stored installment the one its terms give, rows only for decided loans, at most one loan awaiting approval per user, and every loan's rows ascending and paid from the front |
| Lifecycle.StepKeepsInv | backend/prestamos/src/controllers/loanController.js:18-173 | every single handler (request, approve, reject, advance, pay) keeps that invariant |
| Lifecycle.ReachableUpdatesPayInOrder | backend/prestamos/src/models/loanModel.js:57-148 | in every reachable store, the row an update settles is the first pending one in table order, all earlier rows paid and all later ones pending with larger installment numbers, and afterwards the paid rows form a prefix one longer |
| Lifecycle.ActiveLoanGateNeverFires | backend/prestamos/src/models/loanModel.js:45-49 | in every store reachable from an empty one, no user has an 'active' loan |
| Lifecycle.ApprovedLoanDoesNotBlockRequest | backend/prestamos/src/controllers/loanController.js:27-38 | a client holding an approved, unpaid loan and nothing awaiting approval gets 201 for a new request |
| Lifecycle.SecondRequestRefused | backend/prestamos/src/controllers/loanController.js:27-29 | a client with a loan awaiting approval gets 400 and nothing is created |
| Lifecycle.ApprovedScheduleMatchesStoredCuota | backend/prestamos/src/models/loanModel.js:59-79 | in a reachable store, an approval generates exactly `plazo` rows, every one but the last due the installment stored at request time (which exists from two months on), summing to the principal, with final balance 0; a one-month loan gets its row even with no installment |
| Registro.RegexIsRules | frontend-plataforma/src/pages/registro.tsx:15 | the expression with its four lookaheads accepts exactly the strings meeting the rule: at least eight characters, a lowercase letter, an uppercase letter, a digit, one of `@$!%*?&`, and nothing else |
| Registro.Scan | frontend-plataforma/src/pages/registro.tsx:15 | one pass finds each character class exactly when it occurs, and whether every character is allowed |
| Registro.ValidarPassword | frontend-plataforma/src/pages/registro.tsx:14-17 | accepts exactly the passwords meeting the rule, which is exactly what the expression matches |
| Registro.SpaceOrHashRejected | frontend-plataforma/src/pages/registro.tsx:15 | a space or a `#` anywhere means rejection |
| Registro.AcceptedExample | frontend-plataforma/src/pages/registro.tsx:15 | "Abcdef1!" is accepted |
| Registro.RefusedExample | frontend-plataforma/src/pages/registro.tsx:15 | "Abcdefg1", lacking a special character, is refused |
| Registro.CheckForm | frontend-plataforma/src/pages/registro.tsx:19-31 | "all fields required" exactly when a field is empty; the password error exactly when all fields are filled and the rule fails; submission otherwise |
| Registro.EmptyFieldReportedFirst | frontend-plataforma/src/pages/registro.tsx:23-31 | a form with any empty field gets the "all fields required" error even when its password is also invalid |

## Left out

- Floating point. Amounts are integer cents and the formula is exact over the reals. `Math.pow` rounding, `parseFloat`, `toFixed(2)` as applied to a binary float, `NUMERIC(10,2)` casts and the `===` comparison of floats are not modelled. The stored installment is the real formula rounded half up to a cent.
- `GenerateAmortization`: the schedule's running balance is computed from the installment already rounded to cents. The service subtracts the unrounded installment and rounds only what it stores. Each row before the last therefore moves the service's balance by up to half a cent away from the model's. Row k's stored balance can differ by up to k half-cents, and the last row's amount by up to (plazo-1) half-cents.
- `AmortizationSchedule.ScheduleSumsToPrincipal`: holds for the modelled rows. The service's stored amounts are individually rounded, so they need not add up to the principal.
- `ApproveLoanRequest`: for a term of two months or more with no finite installment, the model answers 500 after the approval is kept, with no rows. For ±Infinity this is what the source does: the first row's `$3::NUMERIC(10,2)` cast cannot hold an infinity, the insert throws, and the handler answers 500. For NaN (a zero rate) it is a choice. PostgreSQL's numeric type has a NaN value, so the source likelier inserts rows whose amounts and balances are NaN and answers 200. Integer cents cannot hold NaN.
- `RequestLoan`: stores "no installment" for a NaN or ±Infinity installment and answers 201. That assumes the `cuota_mensual` column accepts those values; the table's schema is not part of this model. If the column refused them, `createLoan` would throw and the handler would answer 500 with nothing created.
- `ProcessPayment`: every non-finite installment is refused with 400. For NaN that is the source's behaviour, since both comparisons are false. A stored -Infinity (for example a zero term at a negative rate) is also "no installment" here. Read back as -Infinity, every amount exceeds it, so the source would take the overpayment branch instead. A missing loan surfaces as 500, because the cross-service fetch throws on the 404; the `!loanResponse.data` branch (404) is unreachable and is not modelled.
- `CalcularCuotaMensual`: "no installment" stands for every non-finite value. Where the numerator `monto * r` and the denominator are both zero, the value is NaN: a zero rate, or a zero principal with a vanishing denominator. Where only the denominator is zero, it is ±Infinity: a zero term at a nonzero rate and principal, or a rate of -2400 % with an even term. At a rate of -1200 % the power is infinite and the installment is 0, as in JavaScript.
- Negative rates and terms are accepted as the service accepts them, with no extra validation.
- Due dates (`NOW() + INTERVAL '1 month' * i`) and payment timestamps are wall-clock time. The log is kept in the order payments were made, which stands in for `ORDER BY fecha_pago DESC`.
- Transport and persistence: the pg pool and SQL text, HTTP routing, the axios calls between the services (direct function calls here), JWT verification, bcrypt and e-mail sending. These are I/O and foreign libraries. The caller is the already-verified token payload.
- Concurrency: the table update is not transactional in the source, and concurrent payments are outside a sequential model.
- The `/amortizacion/:cuotaId/pagar` route uses an undefined `pool` and is not wired into the payment flow. `updateLoanAmortization` is not routed.
- User, financial-data and credit-history CRUD are plain table inserts and selects.
- The rest of the React/Next pages, the network call after the form checks, and configuration files are UI and wiring.
- `getUserLoans` and `getLoanByIdFromDB` appear only as the map lookups inside `GetLoans` and `GetLoanById`.
- `GetAmortization`: returns the rows in insertion order. The source's query has no `ORDER BY`, so the database may return them in any order.
- `NextPending`: among pending rows sharing the smallest installment number, picks the first in table order. `ORDER BY numero_cuota ASC LIMIT 1` leaves that choice to the database. Generated schedules never repeat a number.
- `GetAllPaymentsHistory`: each entry carries the payer and the amount. The entry's serial id and `fecha_pago` are not modelled.
- `RoundHalfUp`: rounds a negative tie up, towards zero. `toFixed(2)` rounds it away from zero. Only a negative principal or rate gives a negative installment.
- `GetLoans` returns a set: the source returns rows in unspecified database order, and loans with distinct ids are distinct values.
- JavaScript strings are UTF-16. Dafny characters are Unicode scalar values, and a character outside the BMP is refused by either reading, since no such character is allowed.

=== FILE: amortization_service.dfy ===
/** The annuity formula of the loans service, over the reals, and its
    rounding to the cents the tables store. */
module AmortizationService {
  import opened LoanTypes

  /** b raised to a natural power. */
  function Pow(b: real, n: nat): real {
    if n == 0 then 1.0 else b * Pow(b, n - 1)
  }

  /** b raised to an integer power; `None` for zero raised to a negative
      power, where JavaScript's `Math.pow` answers Infinity. */
  function PowInt(b: real, e: int): (p: Option<real>)
    ensures p.None? <==> e < 0 && b == 0.0
    ensures e >= 0 ==> p == Some(Pow(b, e))
    ensures p.Some? && e < 0 ==> p.value * Pow(b, -e) == 1.0
  {
    if e >= 0 then Some(Pow(b, e))
    else if b == 0.0 then None
    else PowNonZero(b, -e); Some(1.0 / Pow(b, -e))
  }

  lemma PowNonZero(b: real, n: nat)
    requires b != 0.0
    ensures Pow(b, n) != 0.0
  {
  }

  /** The monthly rate as the service computes it: `tasa / 12 / 100`. */
  function MonthlyRate(tasa: real): real {
    tasa / 12.0 / 100.0
  }

  /** The annuity installment for a monthly rate `r`. When the power is
      infinite (a rate of -100 % a month) the denominator is minus
      infinity and JavaScript's quotient is zero. When the denominator
      `1 - (1 + r)^-plazo` is zero, JavaScript yields NaN or an infinity,
      and there is no installment (`None`). */
  function Annuity(monto: real, r: real, plazo: int): Option<real> {
    match PowInt(1.0 + r, -plazo)
    case None => Some(0.0)
    case Some(p) => if p == 1.0 then None else Some(monto * r / (1.0 - p))
  }

  /** Where the power is finite, the installment solves
      `c * (1 - (1 + r)^-plazo) == monto * r`; where it is infinite, the
      installment is zero. */
  lemma AnnuityEquation(monto: real, r: real, plazo: int)
    requires Annuity(monto, r, plazo).Some?
    ensures PowInt(1.0 + r, -plazo).None? ==> Annuity(monto, r, plazo).value == 0.0
    ensures PowInt(1.0 + r, -plazo).Some? ==>
      && PowInt(1.0 + r, -plazo).value != 1.0
      && Annuity(monto, r, plazo).value * (1.0 - PowInt(1.0 + r, -plazo).value) == monto * r
  {
  }

  /** `calcularCuotaMensual(monto, tasa, plazo)`, with the monthly rate
      written `tasa / 12 / 100`. There is no installment exactly when the
      denominator vanishes; otherwise the installment solves the annuity
      equation, or is zero where the power is infinite. */
  function CalcularCuotaMensual(monto: real, tasa: real, plazo: int): (c: Option<real>)
    ensures c.None? <==> PowInt(1.0 + MonthlyRate(tasa), -plazo) == Some(1.0)
    ensures c.Some? && PowInt(1.0 + MonthlyRate(tasa), -plazo).None? ==> c.value == 0.0
    ensures c.Some? && PowInt(1.0 + MonthlyRate(tasa), -plazo).Some? ==>
      c.value * (1.0 - PowInt(1.0 + MonthlyRate(tasa), -plazo).value) == monto * MonthlyRate(tasa)
  {
    var c := Annuity(monto, MonthlyRate(tasa), plazo);
    if c.Some? then AnnuityEquation(monto, MonthlyRate(tasa), plazo); c else c
  }

  /** The same installment as recomputed when the schedule is generated,
      where the monthly rate is written `tasa / 100 / 12`. */
  function ScheduleCuotaMensual(monto: real, tasa: real, plazo: int): Option<real> {
    Annuity(monto, tasa / 100.0 / 12.0, plazo)
  }

  /** The two spellings of the monthly rate agree over the reals, so the
      installment stored with the loan and the one the schedule uses agree. */
  lemma ScheduleCuotaAgrees(monto: real, tasa: real, plazo: int)
    ensures ScheduleCuotaMensual(monto, tasa, plazo) == CalcularCuotaMensual(monto, tasa, plazo)
  {
    assert tasa / 100.0 / 12.0 == tasa / 1200.0;
    assert MonthlyRate(tasa) == tasa / 1200.0;
  }

  lemma PowAboveOne(b: real, n: nat)
    requires b > 1.0 && n >= 1
    ensures Pow(b, n) > 1.0
  {
    if n > 1 {
      PowAboveOne(b, n - 1);
    }
  }

  lemma PowOfOne(n: nat)
    ensures Pow(1.0, n) == 1.0
  {
  }

  /** A positive rate and a term of at least one month give a defined
      installment. */
  lemma {:induction false} CuotaDefinedForValidTerms(monto: real, tasa: real, plazo: int)
    requires tasa > 0.0 && plazo >= 1
    ensures CalcularCuotaMensual(monto, tasa, plazo).Some?
  {
    var b := 1.0 + MonthlyRate(tasa);
    PowAboveOne(b, plazo);
    var q := Pow(b, plazo);
    assert PowInt(b, -plazo) == Some(1.0 / q);
    assert 1.0 / q < 1.0;
  }

  /** At a rate of -1200 % a year the base of the power is zero, so
      `Math.pow(0, -plazo)` is infinite for a positive term and the
      installment comes out as zero rather than undefined. */
  lemma CuotaZeroAtTotalLoss(monto: real, plazo: int)
    requires plazo >= 1
    ensures CalcularCuotaMensual(monto, -1200.0, plazo) == Some(0.0)
  {
    assert 1.0 + MonthlyRate(-1200.0) == 0.0;
  }

  /** A zero rate makes the denominator `1 - 1^-plazo` vanish: the formula
      has no value (JavaScript answers NaN). */
  lemma {:induction false} CuotaUndefinedAtZeroRate(monto: real, plazo: int)
    ensures CalcularCuotaMensual(monto, 0.0, plazo).None?
  {
    var r := MonthlyRate(0.0);
    assert 1.0 + r == 1.0;
    if plazo >= 0 {
      PowOfOne(plazo);
    } else {
      PowOfOne(-plazo);
    }
  }

  /** A term of zero months makes the denominator `1 - b^0` vanish. */
  lemma CuotaUndefinedAtZeroTerm(monto: real, tasa: real)
    ensures CalcularCuotaMensual(monto, tasa, 0).None?
  {
  }

  /** For one month the installment is the principal plus one month of
      interest. */
  lemma {:induction false} CuotaSingleMonth(monto: real, tasa: real)
    requires tasa > 0.0
    ensures CalcularCuotaMensual(monto, tasa, 1) == Some(monto * (1.0 + MonthlyRate(tasa)))
  {
    var r := MonthlyRate(tasa);
    var b := 1.0 + r;
    assert Pow(b, 1) == b;
    assert PowInt(b, -1) == Some(1.0 / b);
    assert 1.0 / b < 1.0;
    var d := 1.0 - 1.0 / b;
    assert Annuity(monto, r, 1).value == monto * r / d;
    TimesOneMinusInverse(b);
    assert (monto * b) * d == monto * r by {
      assert (monto * b) * d == monto * (b * d);
    }
    QuotientUnique(monto * b, d, monto * r);
    assert Annuity(monto, r, 1) == Some(monto * b);
    var expected := monto * (1.0 + MonthlyRate(tasa));
    assert expected == monto * b;
    assert CalcularCuotaMensual(monto, tasa, 1) == Some(expected);
  }

  lemma TimesOneMinusInverse(b: real)
    requires b != 0.0
    ensures b * (1.0 - 1.0 / b) == b - 1.0
  {
    assert b * (1.0 / b) == 1.0;
  }

  /** The value that solves `x * d == y` is `y / d`. */
  lemma QuotientUnique(x: real, d: real, y: real)
    requires d != 0.0 && x * d == y
    ensures x == y / d
  {
  }

  /** A positive principal at a positive rate over at least one month
      gives a positive installment. */
  lemma {:induction false} CuotaPositive(monto: real, tasa: real, plazo: int)
    requires monto > 0.0 && tasa > 0.0 && plazo >= 1
    ensures CalcularCuotaMensual(monto, tasa, plazo).Some?
    ensures CalcularCuotaMensual(monto, tasa, plazo).value > 0.0
  {
    var r := MonthlyRate(tasa);
    assert r > 0.0;
    var b := 1.0 + r;
    PowAboveOne(b, plazo);
    var q := Pow(b, plazo);
    assert PowInt(b, -plazo) == Some(1.0 / q);
    InverseBelowOne(q);
    var d := 1.0 - 1.0 / q;
    var x := monto * r;
    ProductPositive(monto, r);
    QuotientPositive(x, d);
    AnnuityAt(monto, r, plazo, 1.0 / q);
  }

  /** The annuity where the power is finite and not one. */
  lemma AnnuityAt(monto: real, r: real, plazo: int, p: real)
    requires PowInt(1.0 + r, -plazo) == Some(p) && p != 1.0
    ensures Annuity(monto, r, plazo) == Some(monto * r / (1.0 - p))
  {
  }

  lemma InverseBelowOne(q: real)
    requires q > 1.0
    ensures 0.0 < 1.0 / q < 1.0
  {
  }

  lemma ProductPositive(x: real, y: real)
    requires x > 0.0 && y > 0.0
    ensures x * y > 0.0
  {
  }

  lemma QuotientPositive(x: real, d: real)
    requires x > 0.0 && d > 0.0
    ensures x / d > 0.0
  {
  }

  /** The balance of a loan of `monto` at monthly rate `r` after `k`
      months of interest followed by a payment of `c`. */
  function Balance(monto: real, r: real, c: real, k: nat): real {
    if k == 0 then monto else Balance(monto, r, c, k - 1) * (1.0 + r) - c
  }

  /** The balance in closed form, multiplied through by the rate. */
  lemma {:induction false} BalanceClosedForm(monto: real, r: real, c: real, k: nat)
    ensures r * Balance(monto, r, c, k) == r * monto * Pow(1.0 + r, k) - c * (Pow(1.0 + r, k) - 1.0)
  {
    if k > 0 {
      BalanceClosedForm(monto, r, c, k - 1);
      var x, p := Balance(monto, r, c, k - 1), Pow(1.0 + r, k - 1);
      var y, q := Balance(monto, r, c, k), Pow(1.0 + r, k);
      assert y == x * (1.0 + r) - c;
      assert q == (1.0 + r) * p;
      BalanceStep(monto, r, c, x, p, y, q);
    } else {
      assert Pow(1.0 + r, k) == 1.0;
    }
  }

  /** One month of the closed form: if `x` satisfies it with `p` the power
      so far, then `y`, the balance a month later, satisfies it with the
      next power `q`. */
  lemma BalanceStep(monto: real, r: real, c: real, x: real, p: real, y: real, q: real)
    requires r * x == r * monto * p - c * (p - 1.0)
    requires y == x * (1.0 + r) - c && q == (1.0 + r) * p
    ensures r * y == r * monto * q - c * (q - 1.0)
  {
    var b := 1.0 + r;
    calc {
      r * y;
      r * (x * b - c);
      (r * x) * b - r * c;
      (r * monto * p - c * (p - 1.0)) * b - r * c;
      { assert (r * monto * p) * b == r * monto * (b * p); }
      r * monto * (b * p) - c * ((p - 1.0) * b + r);
      { assert (p - 1.0) * b + r == b * p - 1.0; }
      r * monto * q - c * (q - 1.0);
    }
  }

  /** The annuity meaning of the formula: paying the installment every
      month for `plazo` months, with interest accruing at the monthly rate,
      leaves exactly nothing owed. */
  lemma {:induction false} CuotaAmortizesLoan(monto: real, tasa: real, plazo: int)
    requires plazo >= 1
    requires CalcularCuotaMensual(monto, tasa, plazo).Some?
    ensures Balance(monto, MonthlyRate(tasa), CalcularCuotaMensual(monto, tasa, plazo).value, plazo) == 0.0
  {
    var r := MonthlyRate(tasa);
    var b := 1.0 + r;
    var c := CalcularCuotaMensual(monto, tasa, plazo).value;
    if b == 0.0 {
      assert r == -1.0 && c == 0.0;
      assert Balance(monto, r, c, plazo) == Balance(monto, r, c, plazo - 1) * 0.0 - 0.0;
      return;
    }
    var q := Pow(b, plazo);
    PowNonZero(b, plazo);
    assert PowInt(b, -plazo) == Some(1.0 / q);
    assert 1.0 / q != 1.0;
    assert q != 1.0;
    assert r != 0.0 by {
      if r == 0.0 {
        PowOfOne(plazo);
        assert false;
      }
    }
    BalanceClosedForm(monto, r, c, plazo);
    AnnuityEquation(monto, r, plazo);
    var d := 1.0 - 1.0 / q;
    assert c * d == monto * r;
    assert d * q == q - 1.0 by {
      assert (1.0 / q) * q == 1.0;
    }
    assert c * (q - 1.0) == monto * r * q by {
      calc {
        c * (q - 1.0);
        c * (d * q);
        (c * d) * q;
        monto * r * q;
      }
    }
    assert r * Balance(monto, r, c, plazo) == 0.0;
  }

  /** Rounding to a whole number of cents with ties going up. For a
      non-negative amount this is how `toFixed(2)` rounds an exact value;
      for a negative tie `toFixed` rounds away from zero, which is down. */
  function RoundHalfUp(x: real): (n: int)
    ensures x - 0.5 < n as real <= x + 0.5
  {
    (x + 0.5).Floor
  }

  /** The stored installment in cents for a principal given in cents. */
  function InstallmentCents(monto: int, tasa: real, plazo: int): (c: Option<int>)
    ensures c.Some? <==> CalcularCuotaMensual(monto as real, tasa, plazo).Some?
    ensures c.Some? ==>
      var exact := CalcularCuotaMensual(monto as real, tasa, plazo).value;
      exact - 0.5 < c.value as real <= exact + 0.5
  {
    match CalcularCuotaMensual(monto as real, tasa, plazo)
    case None => None
    case Some(x) => Some(RoundHalfUp(x))
  }

  /** The installment in cents as the schedule generator recomputes it. */
  function ScheduleInstallmentCents(monto: int, tasa: real, plazo: int): Option<int> {
    match ScheduleCuotaMensual(monto as real, tasa, plazo)
    case None => None
    case Some(x) => Some(RoundHalfUp(x))
  }

  /** The schedule recomputes the very installment stored with the loan. */
  lemma ScheduleInstallmentAgrees(monto: int, tasa: real, plazo: int)
    ensures ScheduleInstallmentCents(monto, tasa, plazo) == InstallmentCents(monto, tasa, plazo)
  {
    ScheduleCuotaAgrees(monto as real, tasa, plazo);
  }
}

=== FILE: lifecycle.dfy ===
/** Runs of the two services from an empty store, and the invariants every
    handler keeps. */
module Lifecycle {
  import opened LoanTypes
  import opened AmortizationService
  import opened AmortizationSchedule
  import opened LoanModel
  import opened LoanController
  import opened PaymentController

  /** One request reaching a handler that changes the store. */
  datatype Action =
    | Request(caller: Caller, monto: int, tasa: real, plazo: int)   // POST /solicitar
    | Approve(caller: Caller, id: LoanId)                            // PUT /aprobar
    | Reject(caller: Caller, id: LoanId)                             // PUT /rechazar
    | Advance(id: LoanId)                                            // PUT /actualizarAmortizacion
    | Pay(caller: Caller, id: LoanId, monto: int)                    // POST /realizar

  function Step(s: Store, a: Action): Store {
    match a
    case Request(c, monto, tasa, plazo) => RequestLoan(s, c, monto, tasa, plazo).store
    case Approve(c, id) => ApproveLoanRequest(s, c, id).store
    case Reject(c, id) => RejectLoanRequest(s, c, id).store
    case Advance(id) => UpdateAmortization(s, id).store
    case Pay(c, id, monto) => ProcessPayment(s, c, id, monto).store
  }

  function Run(s: Store, actions: seq<Action>): Store
    decreases |actions|
  {
    if |actions| == 0 then s else Run(Step(s, actions[0]), actions[1..])
  }

  const Empty: Store := Store(map[], map[], [], 0)

  /** What every reachable store satisfies about its loans:
      - the serial counter is ahead of every loan id;
      - no loan ever holds the status 'pendiente';
      - every loan's stored installment is the one its terms give;
      - only loans that have left 'pendiente_aprobacion' have rows;
      - a user has at most one loan awaiting approval. */
  ghost predicate LoanInv(s: Store) {
    && s.Wf()
    && (forall id | id in s.loans :: s.loans[id].estado != Pending)
    && (forall id | id in s.loans ::
          s.loans[id].cuota == InstallmentCents(s.loans[id].monto, s.loans[id].tasa, s.loans[id].plazo))
    && (forall id | id in s.schedules :: id in s.loans && s.loans[id].estado != AwaitingApproval)
    && (forall a, b | a in s.loans && b in s.loans ::
          (s.loans[a].owner == s.loans[b].owner
           && s.loans[a].estado == AwaitingApproval && s.loans[b].estado == AwaitingApproval) ==> a == b)
  }

  /** What every reachable store satisfies about its rows: every loan's
      rows are ascending and paid from the front. */
  ghost predicate RowsInOrder(s: Store) {
    forall id :: PaidInOrder(s.RowsOf(id))
  }

  ghost predicate Inv(s: Store) {
    LoanInv(s) && RowsInOrder(s)
  }

  lemma EmptyInv()
    ensures Inv(Empty)
  {
    assert PaidPrefix([], 0);
  }

  /** Closing the schedule of one loan keeps the invariant: it only ever
      moves that loan to 'pagado'. */
  lemma AdvanceKeepsInv(s: Store, id: LoanId)
    requires Inv(s)
    ensures Inv(UpdateAmortizationTable(s, id).store)
  {
    AdvanceKeepsLoanInv(s, id);
    UpdateKeepsOrder(s, id);
  }

  lemma AdvanceKeepsLoanInv(s: Store, id: LoanId)
    requires LoanInv(s)
    ensures LoanInv(UpdateAmortizationTable(s, id).store)
  {
  }

  /** Row order is a property of the rows alone. */
  lemma SameRowsInOrder(s: Store, t: Store)
    requires RowsInOrder(s) && t.schedules == s.schedules
    ensures RowsInOrder(t)
  {
    forall x ensures PaidInOrder(t.RowsOf(x)) {
      assert t.RowsOf(x) == s.RowsOf(x);
    }
  }

  lemma RequestKeepsInv(s: Store, c: Caller, monto: int, tasa: real, plazo: int)
    requires Inv(s)
    ensures Inv(RequestLoan(s, c, monto, tasa, plazo).store)
  {
    RequestKeepsLoanInv(s, c, monto, tasa, plazo);
    SameRowsInOrder(s, RequestLoan(s, c, monto, tasa, plazo).store);
  }

  lemma RequestKeepsLoanInv(s: Store, c: Caller, monto: int, tasa: real, plazo: int)
    requires LoanInv(s)
    ensures LoanInv(RequestLoan(s, c, monto, tasa, plazo).store)
  {
  }

  lemma ApproveKeepsInv(s: Store, c: Caller, id: LoanId)
    requires Inv(s)
    ensures Inv(ApproveLoanRequest(s, c, id).store)
  {
    ApproveKeepsLoanInv(s, c, id);
    ApproveKeepsOrder(s, c, id);
  }

  lemma ApproveKeepsLoanInv(s: Store, c: Caller, id: LoanId)
    requires LoanInv(s)
    ensures LoanInv(ApproveLoanRequest(s, c, id).store)
  {
    var t := ApproveLoanRequest(s, c, id).store;
    if t != s {
      assert c.rol == Admin && id in s.loans && s.loans[id].estado == AwaitingApproval;
      assert t.loans == s.loans[id := s.loans[id].(estado := Approved)];
      assert t.nextId == s.nextId;
      forall x | x in t.loans
        ensures x < t.nextId && t.loans[x].id == x && t.loans[x].estado != Pending
        ensures t.loans[x].cuota == InstallmentCents(t.loans[x].monto, t.loans[x].tasa, t.loans[x].plazo)
      {
        if x != id { assert t.loans[x] == s.loans[x]; }
      }
      forall x | x in t.schedules
        ensures x in t.loans && t.loans[x].estado != AwaitingApproval
      {
        if x != id { assert x in s.schedules && t.loans[x] == s.loans[x]; }
      }
      forall a, b | a in t.loans && b in t.loans
        ensures (t.loans[a].owner == t.loans[b].owner
                 && t.loans[a].estado == AwaitingApproval && t.loans[b].estado == AwaitingApproval) ==> a == b
      {
        if a != id && b != id { assert t.loans[a] == s.loans[a] && t.loans[b] == s.loans[b]; }
      }
    }
  }

  /** An approval only ever gives rows to a loan that had none, and those
      rows are a fresh schedule. */
  lemma ApproveKeepsOrder(s: Store, c: Caller, id: LoanId)
    requires LoanInv(s) && RowsInOrder(s)
    ensures RowsInOrder(ApproveLoanRequest(s, c, id).store)
  {
    var o := ApproveLoanRequest(s, c, id);
    forall x ensures PaidInOrder(o.store.RowsOf(x)) {
      if o.store.RowsOf(x) == s.RowsOf(x) {
        assert PaidInOrder(s.RowsOf(x));
      } else {
        assert x == id && o.value.Ok? && s.loans[id].plazo >= 1;
        assert id !in s.schedules;
        var loan := s.loans[id];
        var stored := InstallmentCents(loan.monto, loan.tasa, loan.plazo);
        var c := if stored.Some? then stored.value else 0;
        SingleMonthSchedule(loan.monto, c);
        assert o.store.RowsOf(id) == Schedule(loan.monto, c, loan.plazo);
        ScheduleStartsUnpaid(loan.monto, c, loan.plazo);
      }
    }
  }

  lemma RejectKeepsInv(s: Store, c: Caller, id: LoanId)
    requires Inv(s)
    ensures Inv(RejectLoanRequest(s, c, id).store)
  {
    RejectKeepsLoanInv(s, c, id);
    SameRowsInOrder(s, RejectLoanRequest(s, c, id).store);
  }

  lemma RejectKeepsLoanInv(s: Store, c: Caller, id: LoanId)
    requires LoanInv(s)
    ensures LoanInv(RejectLoanRequest(s, c, id).store)
  {
  }

  lemma PayKeepsInv(s: Store, c: Caller, id: LoanId, monto: int)
    requires Inv(s)
    ensures Inv(ProcessPayment(s, c, id, monto).store)
  {
    PayKeepsLoanInv(s, c, id, monto);
    if ProcessPayment(s, c, id, monto).value.Ok? {
      var recorded := RegisterPayment(s, c.id, id, s.loans[id].cuota.value);
      SameRowsInOrder(s, recorded);
      UpdateKeepsOrder(recorded, id);
    }
  }

  lemma PayKeepsLoanInv(s: Store, c: Caller, id: LoanId, monto: int)
    requires LoanInv(s)
    ensures LoanInv(ProcessPayment(s, c, id, monto).store)
  {
  }

  lemma StepKeepsInv(s: Store, a: Action)
    requires Inv(s)
    ensures Inv(Step(s, a))
  {
    match a
    case Request(c, monto, tasa, plazo) => RequestKeepsInv(s, c, monto, tasa, plazo);
    case Approve(c, id) => ApproveKeepsInv(s, c, id);
    case Reject(c, id) => RejectKeepsInv(s, c, id);
    case Advance(id) => AdvanceKeepsInv(s, id);
    case Pay(c, id, monto) => PayKeepsInv(s, c, id, monto);
  }

  lemma {:induction false} RunKeepsInv(s: Store, actions: seq<Action>)
    requires Inv(s)
    ensures Inv(Run(s, actions))
    decreases |actions|
  {
    if |actions| > 0 {
      StepKeepsInv(s, actions[0]);
      RunKeepsInv(Step(s, actions[0]), actions[1..]);
    }
  }

  /** In every store reachable from an empty one, the row an update
      settles is the first pending row in table order: every row before it
      is paid, it and every row after it are pending, the later rows carry
      larger installment numbers, and afterwards the paid rows are exactly
      one more prefix. */
  lemma {:induction false} ReachableUpdatesPayInOrder(actions: seq<Action>, id: LoanId)
    requires !IsLoanFullyPaid(Run(Empty, actions), id)
    ensures var rows := Run(Empty, actions).RowsOf(id);
      var k := NextPending(rows).value;
      && (forall j | 0 <= j < k :: rows[j].estado == Settled)
      && (forall j | k <= j < |rows| :: rows[j].estado == Unpaid)
      && (forall j | k < j < |rows| :: rows[k].numero < rows[j].numero)
      && PaidPrefix(UpdateAmortizationTable(Run(Empty, actions), id).store.RowsOf(id), k + 1)
  {
    EmptyInv();
    RunKeepsInv(Empty, actions);
    var s := Run(Empty, actions);
    var rows := s.RowsOf(id);
    assert PaidInOrder(rows);
    var n: nat :| n <= |rows| && PaidPrefix(rows, n);
    var k := NextPending(rows).value;
    EarliestIsNext(rows, n, k);
    UpdatePaysInOrder(s, id, n);
  }

  /** The second eligibility gate of `requestLoan` never fires: it looks
      for loans in status 'pendiente', which no handler ever writes. */
  lemma {:induction false} ActiveLoanGateNeverFires(actions: seq<Action>, user: UserId)
    ensures !HasActiveLoan(Run(Empty, actions), user)
  {
    EmptyInv();
    RunKeepsInv(Empty, actions);
  }

  /** Consequently a client holding an approved, unpaid loan may request
      another one: only a loan awaiting approval blocks the request. */
  lemma ApprovedLoanDoesNotBlockRequest(s: Store, caller: Caller, id: LoanId, monto: int, tasa: real, plazo: int)
    requires Inv(s)
    requires caller.rol == Client
    requires id in s.loans && s.loans[id].owner == caller.id && s.loans[id].estado == Approved
    requires !HasLoanAwaitingApproval(s, caller.id)
    ensures RequestLoan(s, caller, monto, tasa, plazo).value == Ok(201, RequestLoan(s, caller, monto, tasa, plazo).value.body)
    ensures s.loans[id] in RequestLoan(s, caller, monto, tasa, plazo).store.loans.Values
  {
    var o := RequestLoan(s, caller, monto, tasa, plazo);
    assert o.store.loans[id] == s.loans[id];
  }

  /** The gate does keep a user to one loan awaiting approval: a client who
      already has one is refused with 400 and nothing is created. */
  lemma SecondRequestRefused(s: Store, caller: Caller, id: LoanId, monto: int, tasa: real, plazo: int)
    requires caller.rol == Client
    requires id in s.loans && s.loans[id].owner == caller.id && s.loans[id].estado == AwaitingApproval
    ensures RequestLoan(s, caller, monto, tasa, plazo).value.Status() == 400
    ensures RequestLoan(s, caller, monto, tasa, plazo).store == s
  {
  }

  /** On approval the schedule is generated afresh, and every row but the
      last is due exactly the installment stored with the loan when it was
      requested. A term of two months or more needs that installment; a
      one-month loan is approved with its single row even when there is
      none. */
  lemma ApprovedScheduleMatchesStoredCuota(s: Store, caller: Caller, id: LoanId)
    requires Inv(s)
    requires ApproveLoanRequest(s, caller, id).value.Ok?
    requires s.loans[id].plazo >= 1
    ensures s.loans[id].plazo >= 2 ==> s.loans[id].cuota.Some?
    ensures var rows := ApproveLoanRequest(s, caller, id).store.RowsOf(id);
      && |rows| == s.loans[id].plazo
      && (forall k | 0 <= k < |rows| - 1 :: rows[k].montoCuota == s.loans[id].cuota.value)
      && SumDue(rows) == s.loans[id].monto
      && rows[|rows| - 1].saldo == 0
  {
    var loan := s.loans[id];
    assert id !in s.schedules;
    assert s.RowsOf(id) == [];
    assert loan.cuota == InstallmentCents(loan.monto, loan.tasa, loan.plazo);
    var c := if loan.cuota.Some? then loan.cuota.value else 0;
    SingleMonthSchedule(loan.monto, c);
    var rows := ApproveLoanRequest(s, caller, id).store.RowsOf(id);
    assert rows == Schedule(loan.monto, c, loan.plazo);
    FreshSchedule(loan.monto, c, loan.plazo);
  }

  /** The facts about a freshly generated schedule the approval relies on. */
  lemma FreshSchedule(monto: int, c: int, plazo: int)
    requires plazo >= 1
    ensures var rows := Schedule(monto, c, plazo);
      && |rows| == plazo
      && (forall k | 0 <= k < |rows| - 1 :: rows[k].montoCuota == c)
      && SumDue(rows) == monto
      && rows[|rows| - 1].saldo == 0
  {
    ScheduleShape(monto, c, plazo);
    ScheduleInstallments(monto, c, plazo);
    ScheduleSumsToPrincipal(monto, c, plazo);
    ScheduleBalances(monto, c, plazo);
  }
}

=== FILE: loan_controller.dfy ===
/** The decision logic of the loans service's request handlers. The caller
    is the already-authenticated token payload; a reply is a status code
    with a body, or a failure. */
module LoanController {
  import opened LoanTypes
  import opened AmortizationService
  import opened AmortizationSchedule
  import opened LoanModel

  /** `requestLoan`: only clients may ask; a loan awaiting approval, then
      an 'active' loan, block the request; otherwise one loan is created,
      awaiting approval, with the installment computed from the request.
      The principal, rate and term are not checked. */
  function RequestLoan(s: Store, caller: Caller, monto: int, tasa: real, plazo: int): (o: Outcome<Reply<Loan>>)
    ensures caller.rol != Client ==> o.value == Err(Forbidden) && o.store == s
    ensures caller.rol == Client && HasLoanAwaitingApproval(s, caller.id) ==>
      o.value == Err(AlreadyAwaiting) && o.store == s
    ensures caller.rol == Client && !HasLoanAwaitingApproval(s, caller.id) && HasActiveLoan(s, caller.id) ==>
      o.value == Err(ActiveLoan) && o.store == s
    ensures o.value.Ok? <==>
      caller.rol == Client && !HasLoanAwaitingApproval(s, caller.id) && !HasActiveLoan(s, caller.id)
    ensures o.value.Ok? ==>
      var loan := o.value.body;
      && o.value.code == 201
      && loan.id == s.nextId && loan.owner == caller.id && loan.estado == AwaitingApproval
      && loan.monto == monto && loan.tasa == tasa && loan.plazo == plazo
      && loan.cuota == InstallmentCents(monto, tasa, plazo)
      && o.store.loans == s.loans[loan.id := loan]
      && o.store.schedules == s.schedules && o.store.payments == s.payments
      && o.store.nextId == s.nextId + 1
    ensures o.value.Ok? && s.Wf() ==>
      o.store.Wf() && o.value.body.id !in s.loans && |o.store.loans| == |s.loans| + 1
  {
    if caller.rol != Client then Outcome(Err(Forbidden), s)
    else if HasLoanAwaitingApproval(s, caller.id) then Outcome(Err(AlreadyAwaiting), s)
    else if HasActiveLoan(s, caller.id) then Outcome(Err(ActiveLoan), s)
    else
      var created := CreateLoan(s, caller.id, monto, tasa, plazo, InstallmentCents(monto, tasa, plazo), AwaitingApproval);
      Outcome(Ok(201, created.value), created.store)
  }

  /** `approveLoanRequest`: only administrators; a loan not awaiting
      approval answers 404 and generates nothing; otherwise the loan is
      approved and its schedule generated from its own principal, rate and
      term. A failed generation (a term of two months or more with no
      finite installment) answers 500 after the approval. */
  function ApproveLoanRequest(s: Store, caller: Caller, id: LoanId): (o: Outcome<Reply<Loan>>)
    ensures caller.rol != Admin ==> o.value == Err(Forbidden) && o.store == s
    ensures caller.rol == Admin && !(id in s.loans && s.loans[id].estado == AwaitingApproval) ==>
      o.value == Err(NotFound) && o.store == s
    ensures o.value.Ok? <==>
      && caller.rol == Admin && id in s.loans && s.loans[id].estado == AwaitingApproval
      && (s.loans[id].plazo <= 1 || InstallmentCents(s.loans[id].monto, s.loans[id].tasa, s.loans[id].plazo).Some?)
    ensures o.value.Err? && caller.rol == Admin && id in s.loans && s.loans[id].estado == AwaitingApproval ==>
      o.value == Err(ServerError)
    ensures o.store.payments == s.payments && o.store.nextId == s.nextId
    ensures forall other | other != id :: o.store.RowsOf(other) == s.RowsOf(other)
    ensures o.store.schedules.Keys <= s.schedules.Keys + {id}
    ensures o.value.Ok? ==>
      && o.value.code == 200
      && o.value.body == s.loans[id].(estado := Approved)
      && o.store.loans == s.loans[id := o.value.body]
    ensures o.value.Ok? && s.loans[id].plazo < 1 ==> o.store.RowsOf(id) == s.RowsOf(id)
    ensures o.value.Ok? && s.loans[id].plazo >= 2 ==>
      InstallmentCents(s.loans[id].monto, s.loans[id].tasa, s.loans[id].plazo).Some?
    ensures o.value.Ok? && s.loans[id].plazo >= 1 && InstallmentCents(s.loans[id].monto, s.loans[id].tasa, s.loans[id].plazo).Some? ==>
      var loan := s.loans[id];
      o.store.RowsOf(id) == s.RowsOf(id) + Schedule(loan.monto, InstallmentCents(loan.monto, loan.tasa, loan.plazo).value, loan.plazo)
    ensures o.value.Ok? && s.loans[id].plazo == 1 ==>
      o.store.RowsOf(id) == s.RowsOf(id) + [Row(1, s.loans[id].monto, 0, Unpaid)]
    ensures o.value.Err? && o.value.error == ServerError ==>
      id in s.loans && s.loans[id].plazo >= 2 && InstallmentCents(s.loans[id].monto, s.loans[id].tasa, s.loans[id].plazo).None?
      && o.store == s.(loans := s.loans[id := s.loans[id].(estado := Approved)])
  {
    if caller.rol != Admin then Outcome(Err(Forbidden), s)
    else
      var approved := ApproveLoan(s, id);
      match approved.value
      case None => Outcome(Err(NotFound), s)
      case Some(loan) =>
        match GenerateAmortization(approved.store, id, loan.monto, loan.tasa, loan.plazo)
        case None => Outcome(Err(ServerError), approved.store)
        case Some(s2) =>
          var rows := s2.RowsOf(id);
          var before := approved.store.RowsOf(id);
          assert rows == rows[..|before|] + rows[|before|..];
          Outcome(Ok(200, loan), s2)
  }

  /** `rejectLoanRequest`: the same guards as approval; a rejection never
      touches the schedule. */
  function RejectLoanRequest(s: Store, caller: Caller, id: LoanId): (o: Outcome<Reply<Loan>>)
    ensures caller.rol != Admin ==> o.value == Err(Forbidden) && o.store == s
    ensures o.value.Ok? <==> caller.rol == Admin && id in s.loans && s.loans[id].estado == AwaitingApproval
    ensures caller.rol == Admin && o.value.Err? ==> o.value.error == NotFound && o.store == s
    ensures o.value.Ok? ==>
      && o.value.code == 200
      && o.value.body == s.loans[id].(estado := Rejected)
      && o.store.loans == s.loans[id := o.value.body]
    ensures o.store.schedules == s.schedules && o.store.payments == s.payments && o.store.nextId == s.nextId
  {
    if caller.rol != Admin then Outcome(Err(Forbidden), s)
    else
      var rejected := RejectLoan(s, id);
      match rejected.value
      case None => Outcome(Err(NotFound), s)
      case Some(loan) => Outcome(Ok(200, loan), rejected.store)
  }

  /** `getLoans`: an administrator sees every loan awaiting approval, any
      other caller sees their own loans; an empty listing answers 404. */
  function GetLoans(s: Store, caller: Caller): (r: Reply<set<Loan>>)
    ensures r.Ok? ==> r.code == 200 && r.body != {}
    ensures r.Ok? && caller.rol == Admin ==>
      forall l :: l in r.body <==> l in s.loans.Values && l.estado == AwaitingApproval
    ensures r.Ok? && caller.rol != Admin ==>
      forall l :: l in r.body <==> l in s.loans.Values && l.owner == caller.id
    ensures r.Err? ==> r.error == NoLoans
    ensures r.Err? && caller.rol == Admin ==> forall l | l in s.loans.Values :: l.estado != AwaitingApproval
    ensures r.Err? && caller.rol != Admin ==> forall l | l in s.loans.Values :: l.owner != caller.id
  {
    if caller.rol == Admin then
      var loans := set l | l in s.loans.Values && l.estado == AwaitingApproval;
      if |loans| == 0 then
        assert forall l | l in s.loans.Values && l.estado == AwaitingApproval :: l in loans;
        Err(NoLoans)
      else Ok(200, loans)
    else
      var loans := set l | l in s.loans.Values && l.owner == caller.id;
      if |loans| == 0 then
        assert forall l | l in s.loans.Values && l.owner == caller.id :: l in loans;
        Err(NoLoans)
      else Ok(200, loans)
  }

  /** `getLoanById`: any loan by id, whoever asks. */
  function GetLoanById(s: Store, id: LoanId): (r: Reply<Loan>)
    ensures r.Ok? <==> id in s.loans
    ensures r.Ok? ==> r.code == 200 && r.body == s.loans[id]
    ensures r.Err? ==> r.error == NotFound
  {
    if id in s.loans then Ok(200, s.loans[id]) else Err(NotFound)
  }

  /** `getAmortizationByLoanId`: the loan's rows, or 404 when it has none. */
  function GetAmortization(s: Store, id: LoanId): (r: Reply<seq<Row>>)
    ensures r.Ok? <==> |s.RowsOf(id)| > 0
    ensures r.Ok? ==> r.code == 200 && r.body == s.RowsOf(id)
    ensures r.Err? ==> r.error == NotFound
  {
    if |s.RowsOf(id)| == 0 then Err(NotFound) else Ok(200, s.RowsOf(id))
  }

  /** `updateAmortization`: advances the schedule and always answers 200,
      because the table update always returns a message object and the
      404 branch never fires. No role is checked. The reply's `message` is
      the fixed acknowledgement; the body modelled here is the table
      update's own message, which travels beside it as `amortizacion`. */
  function UpdateAmortization(s: Store, id: LoanId): (o: Outcome<Reply<UpdateMessage>>)
    ensures o.value.Ok? && o.value.code == 200
    ensures o.value.body == UpdateAmortizationTable(s, id).value
    ensures o.store == UpdateAmortizationTable(s, id).store
  {
    var updated := UpdateAmortizationTable(s, id);
    Outcome(Ok(200, updated.value), updated.store)
  }

  /** Even with no pending installment the handler answers 200, carrying
      the "no pending installments" message, and changes nothing. */
  lemma UpdateAmortizationNeverNotFound(s: Store, id: LoanId)
    requires forall j | 0 <= j < |s.RowsOf(id)| :: s.RowsOf(id)[j].estado != Unpaid
    ensures UpdateAmortization(s, id).value == Ok(200, NoPendingInstallments)
    ensures UpdateAmortization(s, id).store == s
  {
  }
}

=== FILE: loan_model.dfy ===
/** The queries of the loans service's model layer, as pure functions on
    the store record. */
module LoanModel {
  import opened LoanTypes
  import opened AmortizationService
  import opened AmortizationSchedule

  // ---------------------------------------------------------------------
  // prestamos
  // ---------------------------------------------------------------------

  /** `createLoan`: inserts a loan under the next serial id. */
  function CreateLoan(s: Store, owner: UserId, monto: int, tasa: real, plazo: int,
                      cuota: Option<int>, estado: LoanStatus): (o: Outcome<Loan>)
    ensures o.value.id == s.nextId && o.value.owner == owner && o.value.estado == estado
    ensures o.value.monto == monto && o.value.tasa == tasa && o.value.plazo == plazo && o.value.cuota == cuota
    ensures o.store.loans == s.loans[s.nextId := o.value] && o.store.nextId == s.nextId + 1
    ensures o.store.schedules == s.schedules && o.store.payments == s.payments
    ensures s.Wf() ==> o.store.Wf() && s.nextId !in s.loans && |o.store.loans| == |s.loans| + 1
  {
    var loan := Loan(s.nextId, owner, monto, tasa, plazo, cuota, estado);
    Outcome(loan, s.(loans := s.loans[s.nextId := loan], nextId := s.nextId + 1))
  }

  /** The conditional update `SET estado = target WHERE id = $1 AND estado =
      'pendiente_aprobacion'`: the updated loan, or `None` (the source's
      `null`) with nothing changed. */
  function Decide(s: Store, id: LoanId, target: LoanStatus): (o: Outcome<Option<Loan>>)
    ensures o.value.Some? <==> id in s.loans && s.loans[id].estado == AwaitingApproval
    ensures o.value.None? ==> o.store == s
    ensures o.value.Some? ==>
      && o.value.value == s.loans[id].(estado := target)
      && o.store.loans.Keys == s.loans.Keys
      && o.store.loans[id] == o.value.value
      && (forall other | other in s.loans && other != id :: o.store.loans[other] == s.loans[other])
      && o.store.schedules == s.schedules && o.store.payments == s.payments && o.store.nextId == s.nextId
  {
    if id in s.loans && s.loans[id].estado == AwaitingApproval then
      var loan := s.loans[id].(estado := target);
      Outcome(Some(loan), s.(loans := s.loans[id := loan]))
    else
      Outcome(None, s)
  }

  /** `approveLoan`. */
  function ApproveLoan(s: Store, id: LoanId): (o: Outcome<Option<Loan>>)
    ensures o.value.Some? <==> id in s.loans && s.loans[id].estado == AwaitingApproval
    ensures o.value.None? ==> o.store == s
    ensures o.value.Some? ==> id in o.store.loans && o.store.loans[id].estado == Approved
  {
    Decide(s, id, Approved)
  }

  /** `rejectLoan`. */
  function RejectLoan(s: Store, id: LoanId): (o: Outcome<Option<Loan>>)
    ensures o.value.Some? <==> id in s.loans && s.loans[id].estado == AwaitingApproval
    ensures o.value.None? ==> o.store == s
    ensures o.value.Some? ==> id in o.store.loans && o.store.loans[id].estado == Rejected
  {
    Decide(s, id, Rejected)
  }

  /** Once a loan is approved, neither a second approval nor a rejection
      of it succeeds. */
  lemma ApproveIsFinal(s: Store, id: LoanId)
    requires ApproveLoan(s, id).value.Some?
    ensures RejectLoan(ApproveLoan(s, id).store, id).value.None?
    ensures ApproveLoan(ApproveLoan(s, id).store, id).value.None?
  {
  }

  /** Once a loan is rejected, neither an approval nor a second rejection
      of it succeeds. */
  lemma RejectIsFinal(s: Store, id: LoanId)
    requires RejectLoan(s, id).value.Some?
    ensures ApproveLoan(RejectLoan(s, id).store, id).value.None?
    ensures RejectLoan(RejectLoan(s, id).store, id).value.None?
  {
  }

  /** The ids of one user's loans in one status. */
  function LoansWith(s: Store, user: UserId, estado: LoanStatus): set<LoanId> {
    set id | id in s.loans && s.loans[id].owner == user && s.loans[id].estado == estado
  }

  /** `hasActiveLoan`: the count of the user's loans whose status is the
      text 'pendiente' is positive. Approved loans are not counted. */
  function HasActiveLoan(s: Store, user: UserId): (r: bool)
    ensures r <==> exists id :: id in s.loans && s.loans[id].owner == user && s.loans[id].estado == Pending
  {
    var ids := LoansWith(s, user, Pending);
    if |ids| > 0 then
      var id :| id in ids; true
    else
      assert forall id | id in s.loans && s.loans[id].owner == user && s.loans[id].estado == Pending :: id in ids;
      false
  }

  /** `hasLoanAwaitingApproval`: the count of the user's loans awaiting
      approval is positive. */
  function HasLoanAwaitingApproval(s: Store, user: UserId): (r: bool)
    ensures r <==> exists id :: id in s.loans && s.loans[id].owner == user && s.loans[id].estado == AwaitingApproval
  {
    var ids := LoansWith(s, user, AwaitingApproval);
    if |ids| > 0 then
      var id :| id in ids; true
    else
      assert forall id | id in s.loans && s.loans[id].owner == user && s.loans[id].estado == AwaitingApproval :: id in ids;
      false
  }

  // ---------------------------------------------------------------------
  // amortizacion
  // ---------------------------------------------------------------------

  /** `generateAmortization`: appends the loan's schedule rows, computing
      the installment from the principal, rate and term it is given. Only
      rows before the last read the installment, so the generation fails
      (`None`) only when the term is two months or more and there is no
      finite installment. A one-month term gets its single row, due the
      whole principal, whatever the installment; a non-positive term gets
      none. */
  function GenerateAmortization(s: Store, id: LoanId, monto: int, tasa: real, plazo: int): (r: Option<Store>)
    ensures r.None? <==> plazo >= 2 && InstallmentCents(monto, tasa, plazo).None?
    ensures r.Some? ==>
      && r.value.loans == s.loans && r.value.payments == s.payments && r.value.nextId == s.nextId
      && (forall other | other != id :: r.value.RowsOf(other) == s.RowsOf(other))
      && |r.value.RowsOf(id)| == |s.RowsOf(id)| + Max0(plazo)
      && r.value.RowsOf(id)[..|s.RowsOf(id)|] == s.RowsOf(id)
    ensures r.Some? && plazo >= 1 ==> SumDue(r.value.RowsOf(id)[|s.RowsOf(id)|..]) == monto
    ensures r.Some? && plazo >= 1 && InstallmentCents(monto, tasa, plazo).Some? ==>
      r.value.RowsOf(id)[|s.RowsOf(id)|..] == Schedule(monto, InstallmentCents(monto, tasa, plazo).value, plazo)
    ensures r.Some? && plazo == 1 ==> r.value.RowsOf(id)[|s.RowsOf(id)|..] == [Row(1, monto, 0, Unpaid)]
  {
    ScheduleInstallmentAgrees(monto, tasa, plazo);
    if plazo < 1 then
      Some(s.(schedules := s.schedules[id := s.RowsOf(id) + Schedule(monto, 0, plazo)]))
    else if plazo == 1 then
      var rows := s.RowsOf(id) + Schedule(monto, 0, 1);
      SingleMonthSchedule(monto, 0);
      var stored := InstallmentCents(monto, tasa, plazo);
      SingleMonthSchedule(monto, if stored.Some? then stored.value else 0);
      ScheduleSumsToPrincipal(monto, 0, 1);
      assert rows[|s.RowsOf(id)|..] == Schedule(monto, 0, 1);
      Some(s.(schedules := s.schedules[id := rows]))
    else
      match ScheduleInstallmentCents(monto, tasa, plazo)
      case None => None
      case Some(cuota) =>
        var rows := s.RowsOf(id) + Schedule(monto, cuota, plazo);
        ScheduleSumsToPrincipal(monto, cuota, plazo);
        assert rows[|s.RowsOf(id)|..] == Schedule(monto, cuota, plazo);
        Some(s.(schedules := s.schedules[id := rows]))
  }

  /** The number of pending rows. */
  function CountPending(rows: seq<Row>): (n: nat)
    ensures n <= |rows|
    ensures n == 0 <==> forall j | 0 <= j < |rows| :: rows[j].estado != Unpaid
  {
    if |rows| == 0 then 0
    else (if rows[0].estado == Unpaid then 1 else 0) + CountPending(rows[1..])
  }

  /** `isLoanFullyPaid`: no row of the loan is pending. */
  function IsLoanFullyPaid(s: Store, id: LoanId): (r: bool)
    ensures r <==> forall j | 0 <= j < |s.RowsOf(id)| :: s.RowsOf(id)[j].estado == Settled
  {
    CountPending(s.RowsOf(id)) == 0
  }

  /** Row `k` is the one `ORDER BY numero_cuota ASC LIMIT 1` selects among
      the pending rows: pending, with the smallest installment number, and
      the first in table order among rows sharing that number. */
  ghost predicate EarliestPending(rows: seq<Row>, k: int) {
    && 0 <= k < |rows|
    && rows[k].estado == Unpaid
    && (forall j | 0 <= j < |rows| && rows[j].estado == Unpaid :: rows[k].numero <= rows[j].numero)
    && (forall j | 0 <= j < k && rows[j].estado == Unpaid :: rows[k].numero < rows[j].numero)
  }

  /** The position of the next row to pay, if any row is pending. */
  function NextPending(rows: seq<Row>): (k: Option<nat>)
    ensures k.None? <==> forall j | 0 <= j < |rows| :: rows[j].estado != Unpaid
    ensures k.Some? ==> EarliestPending(rows, k.value)
  {
    if |rows| == 0 then None
    else
      match NextPending(rows[1..])
      case None => if rows[0].estado == Unpaid then Some(0) else None
      case Some(k) =>
        assert rows[k + 1] == rows[1..][k];
        if rows[0].estado == Unpaid && rows[0].numero <= rows[k + 1].numero then Some(0)
        else Some(k + 1)
  }

  /** `UPDATE prestamos SET estado = ... WHERE id = $1`: no effect on an
      absent id. */
  function SetStatus(loans: map<LoanId, Loan>, id: LoanId, estado: LoanStatus): map<LoanId, Loan> {
    if id in loans then loans[id := loans[id].(estado := estado)] else loans
  }

  /** `updateAmortizationTable`: marks the earliest pending row (the one
      `NextPending` finds) paid, then closes the loan when no row is left
      pending. */
  function UpdateAmortizationTable(s: Store, id: LoanId): (o: Outcome<UpdateMessage>)
    ensures o.value == NoPendingInstallments <==> IsLoanFullyPaid(s, id)
    ensures o.value == NoPendingInstallments ==> o.store == s
    ensures o.value != NoPendingInstallments ==>
      && NextPending(s.RowsOf(id)).Some?
      && var k := NextPending(s.RowsOf(id)).value;
         o.store.RowsOf(id) == s.RowsOf(id)[k := s.RowsOf(id)[k].(estado := Settled)]
    ensures o.value != NoPendingInstallments ==>
      CountPending(o.store.RowsOf(id)) + 1 == CountPending(s.RowsOf(id))
    ensures o.value == LoanFullyPaid <==> o.value != NoPendingInstallments && IsLoanFullyPaid(o.store, id)
    ensures o.store.loans.Keys == s.loans.Keys
    ensures forall other | other in s.loans && other != id :: o.store.loans[other] == s.loans[other]
    ensures id in s.loans ==>
      o.store.loans[id] == s.loans[id].(estado := if o.value == LoanFullyPaid then Paid else s.loans[id].estado)
    ensures forall other | other != id :: o.store.RowsOf(other) == s.RowsOf(other)
    ensures o.store.payments == s.payments && o.store.nextId == s.nextId
  {
    var rows := s.RowsOf(id);
    match NextPending(rows)
    case None => Outcome(NoPendingInstallments, s)
    case Some(k) =>
      var rows' := rows[k := rows[k].(estado := Settled)];
      SettleOneCount(rows, k);
      var s1 := s.(schedules := s.schedules[id := rows']);
      assert s1.RowsOf(id) == rows';
      if CountPending(rows') == 0 then
        Outcome(LoanFullyPaid, s1.(loans := SetStatus(s.loans, id, Paid)))
      else
        Outcome(InstallmentPaid, s1)
  }

  /** Settling one pending row lowers the pending count by exactly one. */
  lemma {:induction false} SettleOneCount(rows: seq<Row>, k: nat)
    requires k < |rows| && rows[k].estado == Unpaid
    ensures CountPending(rows[k := rows[k].(estado := Settled)]) + 1 == CountPending(rows)
  {
    var rows' := rows[k := rows[k].(estado := Settled)];
    if k > 0 {
      assert rows'[1..] == rows[1..][k - 1 := rows[k].(estado := Settled)];
      SettleOneCount(rows[1..], k - 1);
    } else {
      assert rows'[1..] == rows[1..];
    }
  }

  // ---------------------------------------------------------------------
  // Payment order
  // ---------------------------------------------------------------------

  /** Installment numbers strictly increase along the rows. */
  ghost predicate Ascending(rows: seq<Row>) {
    forall i, j | 0 <= i < j < |rows| :: rows[i].numero < rows[j].numero
  }

  /** The first `n` rows are paid and the rest pending. */
  ghost predicate PaidPrefix(rows: seq<Row>, n: nat) {
    && n <= |rows|
    && (forall j | 0 <= j < n :: rows[j].estado == Settled)
    && (forall j | n <= j < |rows| :: rows[j].estado == Unpaid)
  }

  /** A generated schedule is ascending and entirely pending. */
  lemma ScheduleStartsUnpaid(monto: int, cuota: int, plazo: int)
    ensures Ascending(Schedule(monto, cuota, plazo))
    ensures PaidPrefix(Schedule(monto, cuota, plazo), 0)
  {
  }

  /** On an ascending schedule whose first `n` rows are paid, the earliest
      pending row is row `n`. */
  lemma EarliestIsNext(rows: seq<Row>, n: nat, k: int)
    requires Ascending(rows) && PaidPrefix(rows, n) && EarliestPending(rows, k)
    ensures k == n
  {
    assert rows[n].estado == Unpaid;
  }

  /** Payments settle the rows strictly in ascending order: on an ascending
      schedule with `n` rows paid, an update pays row `n` and no other, and
      the loan closes exactly when that was the last row. */
  lemma {:induction false} UpdatePaysInOrder(s: Store, id: LoanId, n: nat)
    requires Ascending(s.RowsOf(id)) && PaidPrefix(s.RowsOf(id), n) && n < |s.RowsOf(id)|
    ensures UpdateAmortizationTable(s, id).value != NoPendingInstallments
    ensures PaidPrefix(UpdateAmortizationTable(s, id).store.RowsOf(id), n + 1)
    ensures Ascending(UpdateAmortizationTable(s, id).store.RowsOf(id))
    ensures UpdateAmortizationTable(s, id).value == LoanFullyPaid <==> n + 1 == |s.RowsOf(id)|
  {
    var rows := s.RowsOf(id);
    var o := UpdateAmortizationTable(s, id);
    assert rows[n].estado == Unpaid;
    var k := NextPending(rows).value;
    EarliestIsNext(rows, n, k);
    var rows' := o.store.RowsOf(id);
    if n + 1 < |rows| {
      assert rows'[n + 1].estado == Unpaid;
    }
  }

  /** Rows kept in ascending installment order and paid from the front:
      the shape every schedule has in a reachable store. */
  ghost predicate PaidInOrder(rows: seq<Row>) {
    && Ascending(rows)
    && exists n: nat | n <= |rows| :: PaidPrefix(rows, n)
  }

  /** An update keeps every loan's rows ascending and paid from the front. */
  lemma UpdateKeepsOrder(s: Store, id: LoanId)
    requires forall x :: PaidInOrder(s.RowsOf(x))
    ensures forall x :: PaidInOrder(UpdateAmortizationTable(s, id).store.RowsOf(x))
  {
    var o := UpdateAmortizationTable(s, id);
    var rows := s.RowsOf(id);
    assert PaidInOrder(rows);
    var n: nat :| n <= |rows| && PaidPrefix(rows, n);
    if n < |rows| {
      UpdatePaysInOrder(s, id, n);
      assert PaidPrefix(o.store.RowsOf(id), n + 1);
    } else {
      assert IsLoanFullyPaid(s, id);
    }
    assert PaidInOrder(o.store.RowsOf(id));
    forall x ensures PaidInOrder(o.store.RowsOf(x)) {
      if x != id {
        assert o.store.RowsOf(x) == s.RowsOf(x);
        assert PaidInOrder(s.RowsOf(x));
      }
    }
  }
}

=== FILE: payment_controller.dfy ===
/** The payments service's handlers. The loan is read through the loans
    service's `getLoanById` and the schedule advanced through its
    `updateAmortization`; both cross-service calls are direct calls here. */
module PaymentController {
  import opened LoanTypes
  import opened LoanModel
  import opened LoanController

  /** What an accepted payment reports. Whatever the table update did,
      the amortization part of the reply is the `message` of the loans
      service's answer, which is always the fixed acknowledgement
      "Amortización actualizada."; the table's own message is never read.
      An overpayment also reports the installment applied and the change;
      an exact payment reports only the acknowledgement. */
  datatype Receipt =
    | Overpaid(applied: int, change: int)
    | Exact

  /** `registerPayment`: appends one payment to the log. */
  function RegisterPayment(s: Store, user: UserId, loan: LoanId, monto: int): (s': Store)
    ensures s'.payments == s.payments + [Payment(user, loan, monto)]
    ensures s'.loans == s.loans && s'.schedules == s.schedules && s'.nextId == s.nextId
  {
    s.(payments := s.payments + [Payment(user, loan, monto)])
  }

  /** `processPayment`. The loan is fetched first: a missing loan makes the
      fetch fail, which surfaces as 500. A fully paid loan answers 400.
      Otherwise the amount is compared with the stored installment: above
      it, the installment alone is recorded and the difference reported as
      change; equal to it, the amount is recorded; below it (or against an
      installment that is not a number) the answer is 400. An accepted
      payment is recorded before the schedule is advanced, so it is
      recorded even when no row is left pending. */
  function ProcessPayment(s: Store, caller: Caller, id: LoanId, monto: int): (o: Outcome<Reply<Receipt>>)
    ensures id !in s.loans ==> o.value == Err(ServerError)
    ensures id in s.loans && s.loans[id].estado == Paid ==> o.value == Err(AlreadyPaid)
    ensures o.value.Ok? <==>
      && id in s.loans && s.loans[id].estado != Paid
      && s.loans[id].cuota.Some? && monto >= s.loans[id].cuota.value
    ensures id in s.loans && s.loans[id].estado != Paid && !o.value.Ok? ==> o.value == Err(AmountTooLow)
    ensures o.value.Err? ==> o.store == s
    ensures o.value.Ok? ==>
      var cuota := s.loans[id].cuota.value;
      && o.value.code == 200
      && o.value.body == (if monto > cuota then Overpaid(cuota, monto - cuota) else Exact)
      && o.store == UpdateAmortizationTable(RegisterPayment(s, caller.id, id, cuota), id).store
      && o.store.payments == s.payments + [Payment(caller.id, id, cuota)]
  {
    match GetLoanById(s, id)
    case Err(_) => Outcome(Err(ServerError), s)
    case Ok(_, loan) =>
      if loan.estado == Paid then Outcome(Err(AlreadyPaid), s)
      else
        match loan.cuota
        case None => Outcome(Err(AmountTooLow), s)
        case Some(cuota) =>
          if monto > cuota then
            var recorded := RegisterPayment(s, caller.id, id, cuota);
            var advanced := UpdateAmortization(recorded, id);
            Outcome(Ok(200, Overpaid(cuota, monto - cuota)), advanced.store)
          else if monto == cuota then
            var recorded := RegisterPayment(s, caller.id, id, monto);
            var advanced := UpdateAmortization(recorded, id);
            Outcome(Ok(200, Exact), advanced.store)
          else
            Outcome(Err(AmountTooLow), s)
  }

  /** The reply depends on the loan alone, never on its rows: a payment
      that settles a row, one that closes the loan and one that finds
      nothing to pay get the same answer. */
  lemma ReplyIgnoresSchedule(s: Store, t: Store, caller: Caller, id: LoanId, monto: int)
    requires (id in s.loans <==> id in t.loans) && (id in s.loans ==> s.loans[id] == t.loans[id])
    ensures ProcessPayment(s, caller, id, monto).value == ProcessPayment(t, caller, id, monto).value
  {
  }

  /** The change of an overpayment is never credited: whatever amount at or
      above the installment is paid, the store ends up the same. */
  lemma ChangeNeverCredited(s: Store, caller: Caller, id: LoanId, m1: int, m2: int)
    requires ProcessPayment(s, caller, id, m1).value.Ok? && ProcessPayment(s, caller, id, m2).value.Ok?
    ensures ProcessPayment(s, caller, id, m1).store == ProcessPayment(s, caller, id, m2).store
  {
  }

  /** A payment against an unpaid loan with no pending row (one awaiting
      approval, rejected, or approved with an empty schedule) is still
      accepted and recorded, with the very reply a payment that settles a
      row gets; the rows and the loans do not move. */
  lemma PaymentRecordedWithoutPendingRows(s: Store, caller: Caller, id: LoanId, monto: int)
    requires id in s.loans && s.loans[id].estado != Paid
    requires s.loans[id].cuota.Some? && monto >= s.loans[id].cuota.value
    requires forall j | 0 <= j < |s.RowsOf(id)| :: s.RowsOf(id)[j].estado != Unpaid
    ensures var cuota := s.loans[id].cuota.value;
      ProcessPayment(s, caller, id, monto).value == Ok(200, if monto > cuota then Overpaid(cuota, monto - cuota) else Exact)
    ensures ProcessPayment(s, caller, id, monto).store.payments == s.payments + [Payment(caller.id, id, s.loans[id].cuota.value)]
    ensures ProcessPayment(s, caller, id, monto).store.loans == s.loans
    ensures ProcessPayment(s, caller, id, monto).store.schedules == s.schedules
  {
    var recorded := RegisterPayment(s, caller.id, id, s.loans[id].cuota.value);
    assert recorded.RowsOf(id) == s.RowsOf(id);
  }

  /** The log with its most recent entry first. */
  function Reverse(xs: seq<Payment>): (r: seq<Payment>)
    ensures |r| == |xs|
    ensures forall i | 0 <= i < |xs| :: r[i] == xs[|xs| - 1 - i]
  {
    if |xs| == 0 then [] else [xs[|xs| - 1]] + Reverse(xs[..|xs| - 1])
  }

  /** One entry of the payment history as the handler returns it: who paid
      and how much (the entry's serial id and timestamp are not modelled). */
  datatype HistoryEntry = HistoryEntry(usuario: UserId, monto: int)

  /** `getAllPaymentsHistory`: administrators only, checked before the log
      is read; the log comes back newest first (`ORDER BY fecha_pago DESC`,
      the log being kept in the order payments were made). */
  function GetAllPaymentsHistory(s: Store, caller: Caller): (r: Reply<seq<HistoryEntry>>)
    ensures r.Ok? <==> caller.rol == Admin
    ensures r.Err? ==> r.error == Forbidden
    ensures r.Ok? ==> r.code == 200 && |r.body| == |s.payments|
    ensures r.Ok? ==> forall i | 0 <= i < |s.payments| ::
      r.body[i] == HistoryEntry(s.payments[|s.payments| - 1 - i].user, s.payments[|s.payments| - 1 - i].monto)
  {
    if caller.rol != Admin then Err(Forbidden)
    else
      var newest := Reverse(s.payments);
      Ok(200, seq(|newest|, i requires 0 <= i < |newest| => HistoryEntry(newest[i].user, newest[i].monto)))
  }
}

=== FILE: registro.dfy ===
/** The registration form's password rule, the regular expression
    `^(?=.*[a-z])(?=.*[A-Z])(?=.*\d)(?=.*[@$!%*?&])[A-Za-z\d@$!%*?&]{8,}$`,
    and the order of the form's checks. */
module Registro {
  import opened LoanTypes

  predicate IsLower(c: char) { 'a' <= c <= 'z' }
  predicate IsUpper(c: char) { 'A' <= c <= 'Z' }
  /** `\d` without the Unicode flag: ASCII digits only. */
  predicate IsDigit(c: char) { '0' <= c <= '9' }
  predicate IsSpecial(c: char) { c == '@' || c == '$' || c == '!' || c == '%' || c == '*' || c == '?' || c == '&' }
  /** The class `[A-Za-z\d@$!%*?&]`. */
  predicate Allowed(c: char) { IsLower(c) || IsUpper(c) || IsDigit(c) || IsSpecial(c) }
  /** The characters `.` does not match. */
  predicate IsLineTerminator(c: char) { c == '\n' || c == '\r' || c == '\U{2028}' || c == '\U{2029}' }

  /** `(?=.*[c])` at the start of `p`: some character of the class `c` is
      preceded only by characters `.` matches. */
  ghost predicate LookaheadAtStart(p: string, inClass: char -> bool) {
    exists i :: 0 <= i < |p| && inClass(p[i]) && forall j | 0 <= j < i :: !IsLineTerminator(p[j])
  }

  /** The whole expression matching `p`: four lookaheads at the start, then
      eight or more characters of the class up to the end of the input. */
  ghost predicate RegexMatches(p: string) {
    && LookaheadAtStart(p, IsLower)
    && LookaheadAtStart(p, IsUpper)
    && LookaheadAtStart(p, IsDigit)
    && LookaheadAtStart(p, IsSpecial)
    && |p| >= 8
    && (forall i | 0 <= i < |p| :: Allowed(p[i]))
  }

  /** The rule as the form states it: at least eight characters, one
      lowercase letter, one uppercase letter, one digit and one of
      `@$!%*?&`, and nothing outside those classes. */
  ghost predicate PasswordRules(p: string) {
    && |p| >= 8
    && (exists i :: 0 <= i < |p| && IsLower(p[i]))
    && (exists i :: 0 <= i < |p| && IsUpper(p[i]))
    && (exists i :: 0 <= i < |p| && IsDigit(p[i]))
    && (exists i :: 0 <= i < |p| && IsSpecial(p[i]))
    && (forall i | 0 <= i < |p| :: Allowed(p[i]))
  }

  /** Because the allowed class holds no line terminator, each lookahead
      reduces to "some character of the class occurs". */
  lemma RegexIsRules(p: string)
    ensures RegexMatches(p) <==> PasswordRules(p)
  {
  }

  /** What one pass over the characters finds. */
  datatype Seen = Seen(lower: bool, upper: bool, digit: bool, special: bool, allAllowed: bool)

  /** One pass over `p`, recording which classes occur and whether every
      character is allowed. */
  function Scan(p: string): (s: Seen)
    ensures s.lower <==> exists i :: 0 <= i < |p| && IsLower(p[i])
    ensures s.upper <==> exists i :: 0 <= i < |p| && IsUpper(p[i])
    ensures s.digit <==> exists i :: 0 <= i < |p| && IsDigit(p[i])
    ensures s.special <==> exists i :: 0 <= i < |p| && IsSpecial(p[i])
    ensures s.allAllowed <==> forall i | 0 <= i < |p| :: Allowed(p[i])
  {
    if |p| == 0 then Seen(false, false, false, false, true)
    else
      var c := p[0];
      var rest := Scan(p[1..]);
      assert forall i | 1 <= i < |p| :: p[i] == p[1..][i - 1];
      assert forall i | 0 <= i < |p| - 1 :: p[1..][i] == p[i + 1];
      Seen(IsLower(c) || rest.lower, IsUpper(c) || rest.upper, IsDigit(c) || rest.digit,
           IsSpecial(c) || rest.special, Allowed(c) && rest.allAllowed)
  }

  /** `validarPassword`: whether the expression accepts `p`. */
  function ValidarPassword(p: string): (ok: bool)
    ensures ok <==> PasswordRules(p)
    ensures ok <==> RegexMatches(p)
  {
    RegexIsRules(p);
    var s := Scan(p);
    |p| >= 8 && s.lower && s.upper && s.digit && s.special && s.allAllowed
  }

  /** A space or a `#` anywhere rejects the password. */
  lemma SpaceOrHashRejected(p: string, i: int)
    requires 0 <= i < |p| && (p[i] == ' ' || p[i] == '#')
    ensures !ValidarPassword(p)
  {
    assert !Allowed(p[i]);
  }

  /** A password meeting every requirement is accepted. */
  lemma AcceptedExample()
    ensures ValidarPassword("Abcdef1!")
  {
    var good := "Abcdef1!";
    assert good == ['A', 'b', 'c', 'd', 'e', 'f', '1', '!'];
    assert IsUpper(good[0]) && IsLower(good[1]) && IsDigit(good[6]) && IsSpecial(good[7]);
    assert forall i | 0 <= i < |good| :: Allowed(good[i]);
    assert PasswordRules(good);
  }

  /** A password lacking only a special character is refused. */
  lemma RefusedExample()
    ensures !ValidarPassword("Abcdefg1")
  {
    var bad := "Abcdefg1";
    assert bad == ['A', 'b', 'c', 'd', 'e', 'f', 'g', '1'];
    assert forall i | 0 <= i < |bad| :: !IsSpecial(bad[i]);
    assert !PasswordRules(bad);
  }

  /** The registration form's fields. */
  datatype Form = Form(nombre: string, email: string, password: string, fechaNacimiento: string, direccion: string)

  datatype FormError =
    | AllFieldsRequired   // "Todos los campos son obligatorios."
    | WeakPassword        // "La contraseña debe tener al menos 8 caracteres, ..."

  predicate SomeFieldEmpty(f: Form) {
    f.nombre == [] || f.email == [] || f.password == [] || f.direccion == [] || f.fechaNacimiento == []
  }

  /** The checks of `handleSubmit` before anything is sent: empty fields
      first, then the password rule. `None` means the form is submitted. */
  function CheckForm(f: Form): (e: Option<FormError>)
    ensures e == Some(AllFieldsRequired) <==> SomeFieldEmpty(f)
    ensures e == Some(WeakPassword) <==> !SomeFieldEmpty(f) && !PasswordRules(f.password)
    ensures e.None? <==> !SomeFieldEmpty(f) && PasswordRules(f.password)
  {
    if SomeFieldEmpty(f) then Some(AllFieldsRequired)
    else if !ValidarPassword(f.password) then Some(WeakPassword)
    else None
  }

  /** A form with an empty field reports the missing fields even when its
      password would also be refused. */
  lemma EmptyFieldReportedFirst(f: Form)
    requires SomeFieldEmpty(f) && !ValidarPassword(f.password)
    ensures CheckForm(f) == Some(AllFieldsRequired)
  {
  }
}

=== FILE: schedule.dfy ===
/** The amortization schedule of `generateAmortization`, in integer cents.
    The fixed installment is an input here, already rounded to cents. */
module AmortizationSchedule {
  import opened LoanTypes

  function Max0(x: int): nat {
    if x < 0 then 0 else x
  }

  /** Row `i` (numbered from 1) of the schedule: every row but the last is
      due the fixed installment; the last is due whatever is left of the
      principal. The stored balance is the principal not yet covered by
      the rows up to and including this one, floored at zero. */
  function ScheduleRow(monto: int, cuota: int, plazo: int, i: int): Row {
    if i == plazo then Row(i, monto - (plazo - 1) * cuota, 0, Unpaid)
    else Row(i, cuota, Max0(monto - i * cuota), Unpaid)
  }

  /** The whole schedule: one row per month of the term, none when the term
      is not positive. */
  function Schedule(monto: int, cuota: int, plazo: int): seq<Row> {
    seq(Max0(plazo), k requires 0 <= k => ScheduleRow(monto, cuota, plazo, k + 1))
  }

  /** The sum of the amounts due over a list of rows. */
  function SumDue(rows: seq<Row>): int {
    if |rows| == 0 then 0 else SumDue(rows[..|rows| - 1]) + rows[|rows| - 1].montoCuota
  }

  /** The loop of `generateAmortization`: a running balance starts at the
      principal, each month's amount is subtracted from it, and the last
      month's amount is the running balance itself. The result is the
      schedule above. */
  method GenerateRows(monto: int, cuota: int, plazo: int) returns (rows: seq<Row>)
    ensures rows == Schedule(monto, cuota, plazo)
  {
    rows := [];
    var saldo := monto;
    var i := 1;
    while i <= plazo
      invariant 1 <= i && (plazo >= 1 ==> i <= plazo + 1) && (plazo < 1 ==> i == 1)
      invariant |rows| == i - 1
      invariant i <= plazo ==> saldo == monto - (i - 1) * cuota
      invariant forall k | 0 <= k < |rows| :: rows[k] == ScheduleRow(monto, cuota, plazo, k + 1)
    {
      var due := if i == plazo then saldo else cuota;
      assert i * cuota == (i - 1) * cuota + cuota;
      saldo := saldo - due;
      rows := rows + [Row(i, due, Max0(saldo), Unpaid)];
      i := i + 1;
    }
    assert |rows| == Max0(plazo);
    assert forall k | 0 <= k < |rows| :: rows[k] == Schedule(monto, cuota, plazo)[k];
  }

  /** The schedule has exactly `plazo` rows (none for a non-positive term),
      numbered 1..plazo in order, all pending. */
  lemma ScheduleShape(monto: int, cuota: int, plazo: int)
    ensures |Schedule(monto, cuota, plazo)| == Max0(plazo)
    ensures forall k | 0 <= k < |Schedule(monto, cuota, plazo)| ::
      Schedule(monto, cuota, plazo)[k].numero == k + 1 && Schedule(monto, cuota, plazo)[k].estado == Unpaid
  {
  }

  /** Every row before the last is due the fixed installment. */
  lemma ScheduleInstallments(monto: int, cuota: int, plazo: int)
    ensures forall k | 0 <= k < plazo - 1 :: Schedule(monto, cuota, plazo)[k].montoCuota == cuota
  {
  }

  /** Over one month the only row is the last, due the whole principal:
      the installment is never read. */
  lemma SingleMonthSchedule(monto: int, cuota: int)
    ensures Schedule(monto, cuota, 1) == [Row(1, monto, 0, Unpaid)]
  {
    assert Schedule(monto, cuota, 1)[0] == ScheduleRow(monto, cuota, 1, 1);
  }

  lemma {:induction false} PrefixSum(monto: int, cuota: int, plazo: int, k: nat)
    requires k < plazo
    ensures SumDue(Schedule(monto, cuota, plazo)[..k]) == k * cuota
  {
    var s := Schedule(monto, cuota, plazo);
    if k > 0 {
      PrefixSum(monto, cuota, plazo, k - 1);
      assert s[..k][..k - 1] == s[..k - 1];
      assert s[k - 1].montoCuota == cuota;
    }
  }

  /** The amounts due add up to the principal exactly: the last row
      absorbs whatever the fixed installments leave. */
  lemma {:induction false} ScheduleSumsToPrincipal(monto: int, cuota: int, plazo: int)
    requires plazo >= 1
    ensures SumDue(Schedule(monto, cuota, plazo)) == monto
  {
    var s := Schedule(monto, cuota, plazo);
    PrefixSum(monto, cuota, plazo, plazo - 1);
    assert s[..|s|][..plazo - 1] == s[..plazo - 1];
    assert s[..|s|] == s;
  }

  /** Each stored balance is the principal less the amounts due so far,
      floored at zero; in particular it is never negative and the last
      one is zero. */
  lemma {:induction false} ScheduleBalances(monto: int, cuota: int, plazo: int)
    ensures forall k | 0 <= k < |Schedule(monto, cuota, plazo)| ::
      Schedule(monto, cuota, plazo)[k].saldo == Max0(monto - SumDue(Schedule(monto, cuota, plazo)[..k + 1]))
    ensures plazo >= 1 ==> Schedule(monto, cuota, plazo)[plazo - 1].saldo == 0
  {
    var s := Schedule(monto, cuota, plazo);
    forall k | 0 <= k < |s|
      ensures s[k].saldo == Max0(monto - SumDue(s[..k + 1]))
    {
      if k + 1 < plazo {
        PrefixSum(monto, cuota, plazo, k + 1);
      } else {
        ScheduleSumsToPrincipal(monto, cuota, plazo);
        assert s[..k + 1] == s;
      }
    }
  }

  /** With a non-negative installment the stored balance never rises from
      one row to the next. */
  lemma {:induction false} BalancesNonIncreasing(monto: int, cuota: int, plazo: int)
    requires cuota >= 0
    ensures forall j, k | 0 <= j <= k < |Schedule(monto, cuota, plazo)| ::
      Schedule(monto, cuota, plazo)[j].saldo >= Schedule(monto, cuota, plazo)[k].saldo
  {
  }

  /** The last amount due is non-negative exactly when the fixed
      installments before it do not exceed the principal. */
  lemma LastDueSign(monto: int, cuota: int, plazo: int)
    requires plazo >= 1
    ensures Schedule(monto, cuota, plazo)[plazo - 1].montoCuota >= 0 <==> (plazo - 1) * cuota <= monto
  {
  }

  /** The schedule subtracts whole installments from the principal and
      never adds interest, so at a high enough rate the fixed installments
      overshoot and the last row is due a negative amount: 100000 cents
      over 12 months at 13500 cents a month leaves -48500 for the last
      month, while the stored balances from the eighth row on read 0. */
  lemma OvershootingSchedule()
    ensures Schedule(100000, 13500, 12)[11].montoCuota == -48500
    ensures Schedule(100000, 13500, 12)[7].saldo == 0
    ensures SumDue(Schedule(100000, 13500, 12)) == 100000
  {
    ScheduleSumsToPrincipal(100000, 13500, 12);
  }
}

=== FILE: types.dfy ===
/** Entities of the loans and payments services, as an in-memory store record.
    Money is held in integer cents; the annual rate is a real percentage. */
module LoanTypes {

  datatype Option<+T> = None | Some(value: T)

  type UserId = nat
  type LoanId = nat

  /** The `estado` column of the `prestamos` table. `Pending` is the text
      'pendiente', which the eligibility check looks for but which no
      operation of the services ever writes. */
  datatype LoanStatus =
    | AwaitingApproval   // 'pendiente_aprobacion'
    | Approved           // 'aprobado'
    | Rejected           // 'rechazado'
    | Paid               // 'pagado'
    | Pending            // 'pendiente'

  /** The `estado` column of the `amortizacion` table. */
  datatype RowStatus =
    | Unpaid             // 'pendiente'
    | Settled            // 'pagado'

  /** The two `rol` texts the handlers compare against; any other text is
      neither. */
  const Client: string := "cliente"
  const Admin: string := "administrador"

  /** The payload of the caller's token: its user id and its `rol` text. */
  datatype Caller = Caller(id: UserId, rol: string)

  /** A row of `prestamos`. `cuota` is the stored monthly installment in
      cents; `None` stands for the non-finite value the JavaScript formula
      yields when its denominator vanishes. */
  datatype Loan = Loan(
    id: LoanId,
    owner: UserId,
    monto: int,
    tasa: real,
    plazo: int,
    cuota: Option<int>,
    estado: LoanStatus)

  /** A row of `amortizacion` (its due date is not modelled). */
  datatype Row = Row(numero: int, montoCuota: int, saldo: int, estado: RowStatus)

  /** A row of `pagos`. */
  datatype Payment = Payment(user: UserId, loan: LoanId, monto: int)

  /** The three tables, plus the next value of the `prestamos.id` serial.
      A loan without an entry in `schedules` has no amortization rows. */
  datatype Store = Store(
    loans: map<LoanId, Loan>,
    schedules: map<LoanId, seq<Row>>,
    payments: seq<Payment>,
    nextId: LoanId)
  {
    /** The rows of one loan, in insertion order. */
    function RowsOf(id: LoanId): seq<Row> {
      if id in schedules then schedules[id] else []
    }

    /** The serial counter is ahead of every key and every loan knows its key. */
    predicate Wf() {
      forall id | id in loans :: id < nextId && loans[id].id == id
    }
  }

  /** A result together with the store after the operation. */
  datatype Outcome<+T> = Outcome(value: T, store: Store)

  /** The messages of `updateAmortizationTable`. */
  datatype UpdateMessage =
    | NoPendingInstallments   // "No hay cuotas pendientes para este préstamo."
    | LoanFullyPaid           // "Préstamo completamente pagado."
    | InstallmentPaid         // "Cuota pagada con éxito."

  /** The error replies of the controllers, each with its HTTP status. */
  datatype Failure =
    | Forbidden             // 403: role not allowed
    | AlreadyAwaiting       // 400: a loan is already awaiting approval
    | ActiveLoan            // 400: an 'active' loan must be paid first
    | NotFound              // 404: no such loan, or not in the expected state
    | NoLoans               // 404: the listing is empty
    | AlreadyPaid           // 400: the loan is fully paid
    | AmountTooLow          // 400: the payment is below the installment
    | ServerError           // 500: an exception reached the handler
  {
    function Status(): nat {
      match this
      case Forbidden => 403
      case AlreadyAwaiting => 400
      case ActiveLoan => 400
      case NotFound => 404
      case NoLoans => 404
      case AlreadyPaid => 400
      case AmountTooLow => 400
      case ServerError => 500
    }
  }

  /** A controller's reply: a success status with a body, or a failure. */
  datatype Reply<+T> = Ok(code: nat, body: T) | Err(error: Failure) {
    function Status(): nat {
      match this
      case Ok(c, _) => c
      case Err(e) => e.Status()
    }
  }
}
